=== FILE: README.md ===
# Drag-and-drop ordering in Navihive's `App` component

This project models the sort logic of the navigation page's `App` component (`src/App.tsx`) and proves properties about it. The user can:

- reorder the groups;
- sort the sites of one group;
- drag a site onto another group's header to move it there;
- save an order, which writes the rank of every item.

The model is a single immutable `SortState` with four fields:

- the sort mode (`Idle`, `GroupSort`, `SiteSort`; the source's `SortMode.None` is `Idle` here);
- the group whose sites are being sorted (`currentSortingGroupId`);
- the group highlighted as a transfer target (`dragOverGroupId`);
- the working copy of the groups with their sites.

Every handler is a pure function of that state and its inputs. A handler that talks to the backend returns a `StepResult`: the new state, the API calls it issued (in order), and the snackbar notices it raised. The backend's answers are inputs:

- whether an order write was accepted: it answered `true` and did not throw;
- whether `updateSite` was accepted: the call did not throw, because its return value is ignored (line 527);
- what the reload (`fetchData`) delivered.

Modules:

- `Wrappers`: `Option`.
- `Lists`: `findIndex` and `find`.
- `Ids`: `toString` of integer ids, `parseInt(…, 10)`, and the `group-<id>` drop-target ids.
- `Model`: the entities, the state, the API calls.
- `Sync`: `fetchData`.
- `Moves`: `arrayMove`, defined as "remove at `from`, insert at `to`".
- `Session`: the mode state machine and the two save handlers.
- `Drag`: `handleDragEnd` and `handleDragOver`.
- `Transfer`: `handleTransferSite`.
- `Ranks`: the rank proposed for a new group or site.
- `Trace`: every handler as one event, and runs of events.
- `Scenarios`: worked examples.

## Behaviour worth knowing

The model follows the code in each of these cases:

- `cancelSort`, `startGroupSort` and `startSiteSort` leave the working groups as they are. After a cancel, the reordered groups stay on screen until the next reload.
- `handleTransferSite` looks the site up in the working `groups`.
- No flag marks an operation in flight. A second save or transfer can start while one is pending.
- Site sorting is guarded by the truthiness of `currentSortingGroupId`. While the sites of a group with id 0 are sorted, `handleDragEnd` does nothing at all, and it does not even clear the hover mark (`Drag.ZeroSortingGroupIgnoresDrop`).
- A successful save leaves the hover mark as it is. A transfer stays in site-sort mode.
- `handleSaveSiteOrder` ignores its `groupId` argument.

## Model

| member | source | states |
|---|---|---|
| Lists.FindIndex | src/App.tsx:462-463 | `findIndex`: -1 exactly when no element matches; otherwise the position of the first match |
| Lists.FindFirst | src/App.tsx:480-481 | `find`: None exactly when no element matches; otherwise the first matching element of the list |
| Ids.DigitPrefix | src/App.tsx:478 | the digits `parseInt` reads: the longest all-digit prefix, so the next character, if any, is not a digit |
| Ids.TrimStart | src/App.tsx:478 | the whitespace `parseInt` skips: only whitespace is dropped, and what is left does not start with whitespace |
| Ids.NatString | src/App.tsx:1117 | `toString` of a non-negative id: a non-empty run of digits with no leading zero |
| Ids.DecimalString | src/App.tsx:462-463 | `toString` of any integer id: a `-` exactly for negative ids, then digits with no leading zero |
| Ids.ParseDigits | src/App.tsx:478 | the unsigned part of `parseInt` yields a number exactly when the text starts with a digit |
| Ids.ParseDigitsStopsAtNonDigit | src/App.tsx:478 | a run of digits followed by a non-digit reads as the value of those digits |
| Ids.ParseSigned | src/App.tsx:478 | the signed part of `parseInt` yields a number exactly when the text starts with a digit, or with `-` or `+` and then a digit |
| Ids.ParseSignedAppliesSign | src/App.tsx:478 | a leading `-` negates the unsigned reading; a leading `+` or no sign keeps it |
| Ids.ParseIntAppliesSign | src/App.tsx:478 | leading whitespace is skipped before the sign and the unsigned reading |
| Ids.ParseInt | src/App.tsx:478 | `parseInt(…, 10)` yields a number exactly when, after leading whitespace, the text starts with a digit, or with a sign and then a digit; otherwise NaN (None) |
| Ids.ParseIntReads | src/App.tsx:478 | whitespace, an optional sign, a run of digits (leading zeros included) and a non-digit tail read as the digits' value with the sign applied, so `" +007px"` reads 7 |
| Ids.ParseIntOfDecimal | src/App.tsx:478 | `parseInt` reads back the integer that `toString` wrote, whatever non-digit text follows it |
| Ids.DecimalRoundTrip | src/App.tsx:478 | `parseInt(id.toString())` is the id, for every integer id |
| Ids.DecimalStringInjective | src/App.tsx:462-463 | two ids with the same string form are equal, so matching `g.id.toString()` against a drag id picks out one id |
| Ids.ParseGroupMarker | src/App.tsx:477-479 | only ids starting with `group-` are read as group drop targets; any other id gives no group |
| Ids.GroupMarkerRoundTrip | src/App.tsx:476-478 | a `group-<id>` drop target, the id form the handler expects of a group card's header, is read back as exactly that group's id |
| Ids.GroupMarkerIgnoresSuffix | src/App.tsx:478 | a marker followed by non-digit text still names its group, because `parseInt` stops at the first non-digit |
| Sync.Reload | src/App.tsx:346-364 | a successful `fetchData` replaces the working groups wholesale; a failed one keeps them and raises a notice; the mode and the hover mark never change |
| Moves.ArrayMove | src/App.tsx:465 | `arrayMove` keeps the length and the multiset of groups, and puts the dragged group at the target position |
| Moves.ArrayMoveElements | src/App.tsx:465 | where each element lands: the moved one at `to`, the ones between shifted one place towards `from`, all others unchanged |
| Moves.ArrayMoveKeepsOthersInOrder | src/App.tsx:465 | removing the moved element again leaves the other groups in their original relative order |
| Moves.ArrayMoveInverse | src/App.tsx:465 | moving from `to` back to `from` restores the original order |
| Moves.ArrayMoveSamePlace | src/App.tsx:461 | a move onto its own position changes nothing |
| Session.StartGroupSort | src/App.tsx:434-437 | from any mode: group sorting with no sorting group; the groups and hover mark stay as they were |
| Session.StartSiteSort | src/App.tsx:439-442 | from any mode: site sorting of the given group; the groups and hover mark stay as they were |
| Session.CancelSort | src/App.tsx:444-448 | from any mode: no sorting, no sorting group, no hover mark; the working groups are not restored |
| Session.ModeEntryForgetsPriorMode | src/App.tsx:434-448 | entering a mode replaces the previous one: the result does not depend on which mode was active before |
| Session.OrderPayload | src/App.tsx:390-393 | the order payload has one entry per list member, in list order, and entry i has rank i |
| Session.PayloadIdsRoundTrip | src/App.tsx:390-393 | the payload's ids are exactly the list's ids, in display order, so every member is included, moved or not |
| Session.PayloadRanksDense | src/App.tsx:413-416 | the payload's ranks are exactly 0..n-1, each used once |
| Session.FinishSave | src/App.tsx:395-408 | if the write is accepted: reload, then no sorting and no sorting group, hover mark kept, and no notice unless the reload fails, which raises only its own; if it is refused or throws: one save-error notice and the state unchanged |
| Session.SaveGroupOrder | src/App.tsx:388-409 | one `updateGroupOrder` carrying `{group id, index}` for every working group; if it is accepted: a reload, the mode reset, the hover mark kept, the groups kept when the reload fails, and no notice but the reload's own; if refused: one save-error notice and nothing changed |
| Session.SaveSiteOrder | src/App.tsx:411-432 | one `updateSiteOrder` carrying `{site id, index}` for every site handed over; if it is accepted: a reload, the mode reset, the hover mark kept, the groups kept when the reload fails, and no notice but the reload's own; if refused: one save-error notice and nothing changed |
| Transfer.AllSites | src/App.tsx:513 | `flatMap` over the groups: a site is in the result exactly when it belongs to some group |
| Transfer.TransferredSite | src/App.tsx:521-525 | the transfer record has the target group and rank 0; putting back the old group and rank gives the original site, so every other field is kept |
| Transfer.TransferSite | src/App.tsx:511-536 | no `updateSite` call exactly when no site has the id (the not-found notice is raised instead); otherwise exactly one call with the re-homed record of the first site with that id, in group order; if it is accepted, a reload follows and the move is announced last, after any reload notice; if it throws, the state is unchanged and only the error notice is raised; the groups change only through that reload; mode, sorting group and hover mark are untouched |
| Drag.GroupKeyMatchesOnlyItsId | src/App.tsx:462-463 | `g.id.toString() === key` holds for the key of an id exactly when the group has that id |
| Drag.SiteKeyMatchesOnlyItsId | src/App.tsx:481 | `s.id?.toString() === key` holds for the key of an id exactly when the site has that id; a site without an id matches no key |
| Drag.GroupSortDrop | src/App.tsx:460-469 | group sorting always yields a permutation of the groups, and a drop onto itself changes nothing |
| Drag.CrossGroupDrop | src/App.tsx:473-487 | a transfer is requested only for a `group-<n>` marker whose n differs from the source group, and only for a site with a non-zero id that is in the first group with the source id |
| Drag.DragEnd | src/App.tsx:451-493 | mode and sorting group never change, and the groups are only ever permuted; with no target, only the hover mark is cleared; group sorting never transfers; a transfer needs site sorting of a truthy group and a different target; outside these cases nothing changes |
| Drag.GroupSortDropMoves | src/App.tsx:460-469 | when both ids are found and differ, the new order is `arrayMove(old, new)` and the dragged group is at the new position |
| Drag.GroupSortDropNoMatch | src/App.tsx:462-466 | when the ids are equal or either is not found, the order is unchanged and only the hover mark is cleared |
| Drag.SiteSortDropTransfers | src/App.tsx:477-487 | conversely, a drop on a foreign marker while the group that holds the dragged site is being sorted requests that transfer, unless the site's id is 0 |
| Drag.ZeroSortingGroupIgnoresDrop | src/App.tsx:473 | the site-sort branch tests `currentSortingGroupId` for truthiness, so a sorting group with id 0 counts as absent: a drop then changes nothing, not even the hover mark |
| Drag.DragOver | src/App.tsx:495-509 | nothing changes outside site sorting; in site sorting, the hover mark is n exactly when the target is a `group-<n>` marker with n other than the sorting group, and it is cleared otherwise |
| Drag.HoverOnContainerMarksItsGroup | src/App.tsx:499-503 | hovering over a group's header highlights that very group, unless it is the group being sorted |
| Drag.HoverAgreesWithDrop | src/App.tsx:478-481 | the highlighted group is the group that a drop at the same spot transfers to |
| Ranks.NewGroupRank | src/App.tsx:542 | after a committed order, the new group's rank `groups.length` is above every existing rank |
| Ranks.NewGroupRankExtendsDense | src/App.tsx:542 | after a committed order, a new group's rank `groups.length` is used by no group, and appending the group keeps the ranks dense |
| Ranks.MaxRank | src/App.tsx:577 | `Math.max` of the ranks is one of the ranks and no rank is larger |
| Ranks.NewSiteRank | src/App.tsx:575-578 | a new site's rank is greater than every rank in its group and one more than some rank there; it is 0 for an empty or unknown group |
| Trace.Complete | src/App.tsx:481-486 | what follows a drop: nothing if no transfer was asked for; otherwise the transfer, which keeps the mode, writes no order, and leaves the dropped-on groups unless it reloads |
| Trace.DropAndTransfer | src/App.tsx:481-486 | a drop followed by its transfer never changes the mode, never writes an order, and only permutes the groups unless it reloads |
| Trace.Step | src/App.tsx:388-536 | every handler keeps the mode consistent (a sorting group exactly in site-sort mode); only the save handlers write an order; a handler that issues no reload only rearranges the working groups |
| Trace.Run | src/App.tsx:388-536 | over any sequence of handlers: the mode stays consistent; without a save no order is written; until a reload is issued the working groups are only permuted, with none added, dropped or changed locally |
| Trace.RunFromMountKeepsModeConsistent | src/App.tsx:299-303 | from the state after mount (no sorting, no sorting group), any sequence of handlers leaves exactly one mode active |
| Trace.DropTransferFindsSite | src/App.tsx:513-520 | a transfer requested by a drop always finds its site, so the not-found branch cannot be reached from a drop, and the `updateSite` record has rank 0 |
| Scenarios.SampleKeysFound | src/App.tsx:462-463 | in groups 1, 2, 3 the key "3" is at position 2 and the key "1" at position 0 |
| Scenarios.SampleMove | src/App.tsx:465 | `arrayMove([1, 2, 3], 2, 0)` is `[3, 1, 2]` |
| Scenarios.GroupDropReorders | src/App.tsx:460-469 | group 3 dropped on group 1 gives the order 3, 1, 2 and clears the hover mark |
| Scenarios.GroupOrderSaved | src/App.tsx:388-409 | saving the order 3, 1, 2 writes exactly `[{3,0},{1,1},{2,2}]`, reloads, and ends sorting |
| Scenarios.SampleSites | src/App.tsx:513 | the sample groups hold exactly the one sample site |
| Scenarios.DropOnForeignContainer | src/App.tsx:473-492 | a site of group 1 dropped on another group's header requests the transfer into that group and clears the hover mark |
| Scenarios.TransferWritesOnce | src/App.tsx:511-536 | the transfer issues one `updateSite` with the new group and rank 0, then a reload; the groups come from the reload, not from a local insertion; site sorting continues |
| Scenarios.DropTransfersAndReloads | src/App.tsx:473-536 | the drop together with the transfer it asks for issues `updateSite` and then `fetchData`, and ends with the reloaded groups, still sorting group 1 |

## Left out

- Authentication, configuration, custom CSS, theme, document title, JSON import/export, and the group/site create, update and delete handlers. These are network, DOM or storage side effects and are not part of the sort logic.
- Sensor activation thresholds and `closestCenter` collision detection. These are drag-library settings with no visible logic.
- Rendering, and the snackbar text. Notices are kinds (`Notice`), not messages. An order write that answers `false` and one that throws both take the catch branch, so they are one input (`accepted = false`).
- Reordering sites within a group. That logic lives in the group card component, which is not part of this model. The site list handed to `handleSaveSiteOrder` is an input.
- Asynchronous interleaving. A requested transfer is completed inside the same drop event (`Trace.DropAndTransfer`). Concurrent saves and transfers are not modelled, and the code has no guard against them.
- `fetchData`'s loading flag, and its switch to the login screen on authentication errors.
- Drag ids are modelled as strings. The drag library also allows numeric ids.
- The group card that registers the `group-<id>` drop target is not part of this model. The DOM id `group-${group.id}` on each group's wrapper (line 1131) has the same form, but the handlers do not read it.
- Number precision. `parseInt` results above 2^53 are exact here, where the source would round them. `toString` of an id of magnitude 1e21 or more is written in plain digits here, not in exponent form.
- `arrayMove`'s handling of negative indices. The handler only calls it with two found positions.
- A group's `sites` is always present here. The source falls back to `[]` when it is missing.
- Ids.ParseInt: its own contract states only when the result is NaN. The value is stated by `Ids.ParseIntReads` for text of the form whitespace, optional sign, digits and a non-digit tail. `Ids.ParseIntOfDecimal` covers `toString` output followed by a non-digit tail, which is every id the program writes.

=== FILE: drag.dfy ===
/** `handleDragEnd` and `handleDragOver`: how a finished or hovering drag is
    read, given the active item's id and the id of what it is over. */
module Drag {
  import opened Wrappers
  import opened Model
  import opened Lists
  import opened Ids
  import Moves

  /** `g.id.toString() === key`: the sortable group list is keyed by stringified ids. */
  function GroupKeyIs(key: string): Group -> bool {
    (g: Group) => DecimalString(g.id) == key
  }

  /** `s.id?.toString() === key`: a site without an id never matches. */
  function SiteKeyIs(key: string): Site -> bool {
    (x: Site) => x.id.Some? && DecimalString(x.id.value) == key
  }

  /** A group matches the key of an id exactly when it has that id. */
  lemma GroupKeyMatchesOnlyItsId(id: int, g: Group)
    ensures GroupKeyIs(DecimalString(id))(g) <==> g.id == id
  {
    if GroupKeyIs(DecimalString(id))(g) {
      DecimalStringInjective(g.id, id);
    }
  }

  /** A site matches the key of an id exactly when it has that id; a site
      without an id matches no key. */
  lemma SiteKeyMatchesOnlyItsId(id: int, x: Site)
    ensures SiteKeyIs(DecimalString(id))(x) <==> x.id == Some(id)
  {
    if SiteKeyIs(DecimalString(id))(x) {
      DecimalStringInjective(x.id.value, id);
    }
  }

  /** Group sorting: when both ids are found, move the active group to the
      position of the group it was dropped on; otherwise keep the order. */
  function GroupSortDrop(groups: seq<Group>, activeId: string, overId: string): (r: seq<Group>)
    ensures |r| == |groups| && multiset(r) == multiset(groups)
    ensures activeId == overId ==> r == groups
  {
    if activeId == overId then groups
    else
      var oldIndex := FindIndex(groups, GroupKeyIs(activeId));
      var newIndex := FindIndex(groups, GroupKeyIs(overId));
      if oldIndex != -1 && newIndex != -1 then Moves.ArrayMove(groups, oldIndex, newIndex) else groups
  }

  /** Site sorting in group `source`: a transfer is asked for only when the
      drop target is a `group-<n>` marker with `n` a number other than
      `source`, and the active site is found, with a non-zero id, in the first
      group whose id is `source`. A drop on a sibling site asks for nothing. */
  function CrossGroupDrop(groups: seq<Group>, source: int, activeId: string, overId: string): (r: Option<TransferRequest>)
    ensures r.Some? ==> ParseGroupMarker(overId) == Some(r.value.targetGroupId)
    ensures r.Some? ==> r.value.targetGroupId != source && r.value.siteId != 0
    ensures r.Some? ==>
      exists k :: 0 <= k < |groups| && groups[k].id == source
        && (forall j :: 0 <= j < k ==> groups[j].id != source)
        && exists x :: x in groups[k].sites && x.id == Some(r.value.siteId) && DecimalString(r.value.siteId) == activeId
  {
    match ParseGroupMarker(overId)
    case None => None
    case Some(target) =>
      if target == source then None
      else
        match FindFirst(groups, GroupIdIs(source))
        case None => None
        case Some(g) =>
          assert g == groups[FindIndex(groups, GroupIdIs(source))];
          match FindFirst(g.sites, SiteKeyIs(activeId))
          case None => None
          case Some(site) => if site.id.value != 0 then Some(TransferRequest(site.id.value, target)) else None
  }

  datatype DragEndResult = DragEndResult(state: SortState, transfer: Option<TransferRequest>)

  /** `handleDragEnd`. No target: only the hover mark is cleared. Group
      sorting: the groups are permuted and the hover mark cleared. Site
      sorting with a truthy sorting group: the groups stay, a transfer may be
      asked for, and the hover mark is cleared. Any other case changes nothing,
      the hover mark included. The mode never changes. */
  function DragEnd(s: SortState, activeId: string, overId: Option<string>): (r: DragEndResult)
    ensures r.state.mode == s.mode && r.state.sortingGroup == s.sortingGroup
    ensures multiset(r.state.groups) == multiset(s.groups) && |r.state.groups| == |s.groups|
    ensures overId.None? || s.mode != GroupSort ==> r.state.groups == s.groups
    ensures overId.None? ==> r.state.dragOver == None && r.transfer == None
    ensures s.mode == GroupSort ==> r.state.dragOver == None && r.transfer == None
    ensures r.transfer.Some? ==> s.mode == SiteSort && Truthy(s.sortingGroup) && r.transfer.value.targetGroupId != s.sortingGroup.value
    ensures s.mode == SiteSort && Truthy(s.sortingGroup) ==> r.state.dragOver == None
    ensures overId.Some? && (s.mode == Idle || (s.mode == SiteSort && !Truthy(s.sortingGroup))) ==> r == DragEndResult(s, None)
  {
    if overId.None? then
      DragEndResult(s.(dragOver := None), None)
    else if s.mode == GroupSort then
      DragEndResult(s.(groups := GroupSortDrop(s.groups, activeId, overId.value), dragOver := None), None)
    else if s.mode == SiteSort && Truthy(s.sortingGroup) then
      DragEndResult(s.(dragOver := None), CrossGroupDrop(s.groups, s.sortingGroup.value, activeId, overId.value))
    else
      DragEndResult(s, None)
  }

  /** A group dropped on another group moves to that group's position; the
      group it displaced and all others keep their relative order. */
  lemma GroupSortDropMoves(s: SortState, activeId: string, overId: string, oldIndex: nat, newIndex: nat)
    requires s.mode == GroupSort && activeId != overId
    requires oldIndex < |s.groups| && newIndex < |s.groups|
    requires oldIndex == FindIndex(s.groups, GroupKeyIs(activeId))
    requires newIndex == FindIndex(s.groups, GroupKeyIs(overId))
    ensures DragEnd(s, activeId, Some(overId)).state.groups == Moves.ArrayMove(s.groups, oldIndex, newIndex)
    ensures DragEnd(s, activeId, Some(overId)).state.groups[newIndex] == s.groups[oldIndex]
    ensures DecimalString(DragEnd(s, activeId, Some(overId)).state.groups[newIndex].id) == activeId
  {
  }

  /** A group dropped where no group with that key is, or on itself, stays put. */
  lemma GroupSortDropNoMatch(s: SortState, activeId: string, overId: string)
    requires s.mode == GroupSort
    requires activeId == overId
      || FindIndex(s.groups, GroupKeyIs(activeId)) == -1
      || FindIndex(s.groups, GroupKeyIs(overId)) == -1
    ensures DragEnd(s, activeId, Some(overId)).state == s.(dragOver := None)
  {
  }

  /** The converse of DragEnd's transfer guarantee: whenever the drop lands on
      a foreign group's marker while sorting a truthy group that holds the
      active site with a non-zero id, the transfer is asked for. */
  lemma SiteSortDropTransfers(s: SortState, activeId: string, overId: string, source: Group, site: Site, target: int)
    requires s.mode == SiteSort && s.sortingGroup == Some(source.id) && source.id != 0
    requires FindFirst(s.groups, GroupIdIs(source.id)) == Some(source)
    requires FindFirst(source.sites, SiteKeyIs(activeId)) == Some(site)
    requires ParseGroupMarker(overId) == Some(target) && target != source.id
    ensures site.id.Some?
    ensures site.id.value != 0 ==> DragEnd(s, activeId, Some(overId)).transfer == Some(TransferRequest(site.id.value, target))
    ensures site.id.value == 0 ==> DragEnd(s, activeId, Some(overId)).transfer == None
  {
    assert SiteKeyIs(activeId)(site);
    var request := CrossGroupDrop(s.groups, source.id, activeId, overId);
    assert request == (if site.id.value != 0 then Some(TransferRequest(site.id.value, target)) else None);
    assert Truthy(s.sortingGroup) && s.mode != GroupSort;
    assert DragEnd(s, activeId, Some(overId)) == DragEndResult(s.(dragOver := None), request);
  }

  /** `currentSortingGroupId` is tested for truthiness: while the sites of a
      group with id 0 are sorted, a drop changes nothing at all, not even the
      hover mark. */
  lemma ZeroSortingGroupIgnoresDrop(s: SortState, activeId: string, overId: string)
    requires s.mode == SiteSort && s.sortingGroup == Some(0)
    ensures !Truthy(s.sortingGroup)
    ensures DragEnd(s, activeId, Some(overId)) == DragEndResult(s, None)
  {
  }

  /** `handleDragOver`. Outside site sorting nothing changes. In site sorting
      the hover mark becomes `n` exactly when the target is a `group-<n>`
      marker with `n` a number other than the sorting group, and is cleared
      otherwise; nothing else changes. */
  function DragOver(s: SortState, overId: Option<string>): (r: SortState)
    ensures s.mode != SiteSort ==> r == s
    ensures r.mode == s.mode && r.sortingGroup == s.sortingGroup && r.groups == s.groups
    ensures s.mode == SiteSort && r.dragOver.Some? ==>
      overId.Some? && ParseGroupMarker(overId.value) == r.dragOver && r.dragOver != s.sortingGroup
    ensures s.mode == SiteSort && r.dragOver.None? ==>
      overId.None? || ParseGroupMarker(overId.value).None? || ParseGroupMarker(overId.value) == s.sortingGroup
  {
    if s.mode != SiteSort then s
    else
      var hover :=
        if overId.None? then None
        else match ParseGroupMarker(overId.value)
          case None => None
          case Some(n) => if Some(n) != s.sortingGroup then Some(n) else None;
      s.(dragOver := hover)
  }

  /** Hovering over a group's header highlights that very group, unless it
      is the group being sorted. */
  lemma HoverOnContainerMarksItsGroup(s: SortState, id: int)
    requires s.mode == SiteSort
    ensures DragOver(s, Some(GroupMarker(id))).dragOver == (if s.sortingGroup == Some(id) then None else Some(id))
  {
    GroupMarkerRoundTrip(id);
  }

  /** The highlighted group is the one a drop at the same spot transfers to. */
  lemma HoverAgreesWithDrop(s: SortState, activeId: string, overId: string)
    requires DragOver(s, Some(overId)).dragOver.Some?
    requires DragEnd(s, activeId, Some(overId)).transfer.Some?
    ensures DragEnd(s, activeId, Some(overId)).transfer.value.targetGroupId == DragOver(s, Some(overId)).dragOver.value
  {
  }
}

=== FILE: ids.dfy ===
/** The string identifiers the drag layer works with. Sortable groups are keyed
    by `group.id.toString()`; a group's header is a drop target with the id
    `group-<id>`, which a drop or hover target is read back from with
    `parseInt(id.replace('group-', ''), 10)`. */
module Ids {
  import opened Wrappers

  predicate IsDigit(c: char) {
    '0' <= c <= '9'
  }

  predicate AllDigits(s: string) {
    forall i :: 0 <= i < |s| ==> IsDigit(s[i])
  }

  function DigitValue(c: char): nat
    requires IsDigit(c)
  {
    (c as int) - ('0' as int)
  }

  function DigitChar(d: nat): (c: char)
    requires d < 10
    ensures IsDigit(c) && DigitValue(c) == d
  {
    (('0' as int) + d) as char
  }

  /** Decimal digits of a non-negative integer, most significant first, no leading zeros. */
  function NatString(n: nat): (s: string)
    ensures |s| > 0 && AllDigits(s)
    ensures |s| > 1 ==> s[0] != '0'
  {
    if n < 10 then [DigitChar(n)] else NatString(n / 10) + [DigitChar(n % 10)]
  }

  /** `Number.prototype.toString()` on an integer id (exponent notation for
      magnitudes of 1e21 and beyond is not modelled). */
  function DecimalString(n: int): (s: string)
    ensures |s| > 0 && (s[0] == '-' <==> n < 0)
    ensures n < 0 ==> |s| > 1 && AllDigits(s[1..]) && s[1] != '0'
    ensures n >= 0 ==> AllDigits(s) && (|s| > 1 ==> s[0] != '0')
  {
    if n < 0 then "-" + NatString(-n) else NatString(n)
  }

  /** The value of a run of decimal digits (0 for none). */
  function DigitsValue(s: string): nat
    requires AllDigits(s)
  {
    if |s| == 0 then 0 else 10 * DigitsValue(s[..|s| - 1]) + DigitValue(s[|s| - 1])
  }

  /** The longest prefix of `s` made only of decimal digits. */
  function DigitPrefix(s: string): (p: string)
    ensures p <= s && AllDigits(p)
    ensures |p| < |s| ==> !IsDigit(s[|p|])
  {
    if |s| == 0 || !IsDigit(s[0]) then "" else [s[0]] + DigitPrefix(s[1..])
  }

  /** The characters `parseInt` skips before the number: the ECMAScript
      WhiteSpace and LineTerminator code points. */
  predicate IsJsWhitespace(c: char) {
    || c == '\t' || c == '\n' || c == '\U{000B}' || c == '\U{000C}' || c == '\r'
    || c == ' ' || c == '\U{00A0}' || c == '\U{1680}'
    || ('\U{2000}' <= c <= '\U{200A}')
    || c == '\U{2028}' || c == '\U{2029}' || c == '\U{202F}' || c == '\U{205F}'
    || c == '\U{3000}' || c == '\U{FEFF}'
  }

  /** `s` with its leading whitespace removed. */
  function TrimStart(s: string): (t: string)
    ensures |t| <= |s| && t == s[|s| - |t|..]
    ensures forall i :: 0 <= i < |s| - |t| ==> IsJsWhitespace(s[i])
    ensures |t| > 0 ==> !IsJsWhitespace(t[0])
  {
    if |s| > 0 && IsJsWhitespace(s[0]) then TrimStart(s[1..]) else s
  }

  /** The unsigned part of `parseInt`: the longest run of leading digits, or
      None when there is none. */
  function ParseDigits(t: string): (r: Option<nat>)
    ensures r.Some? <==> |t| > 0 && IsDigit(t[0])
  {
    var digits := DigitPrefix(t);
    if |digits| == 0 then None else Some(DigitsValue(digits))
  }

  /** `t` starts with a digit, or with a sign followed by a digit. */
  predicate StartsNumber(t: string) {
    || (|t| > 0 && IsDigit(t[0]))
    || (|t| > 1 && (t[0] == '-' || t[0] == '+') && IsDigit(t[1]))
  }

  /** An optional sign, then digits. */
  function ParseSigned(t: string): (r: Option<int>)
    ensures r.Some? ==> exists i :: 0 <= i < |t| && IsDigit(t[i])
    ensures r.Some? <==> StartsNumber(t)
  {
    if |t| > 0 && t[0] == '-' then
      match ParseDigits(t[1..])
      case None => None
      case Some(m) => assert IsDigit(t[1]); Some(-(m as int))
    else if |t| > 0 && t[0] == '+' then
      match ParseDigits(t[1..])
      case None => None
      case Some(m) => assert IsDigit(t[1]); Some(m)
    else
      match ParseDigits(t)
      case None => None
      case Some(m) => Some(m)
  }

  /** `parseInt(s, 10)`: leading whitespace, an optional sign, then the longest
      run of digits; anything after the digits is ignored. NaN is None. Results
      beyond 2^53 are exact here, whereas the source would round them. */
  function ParseInt(s: string): (r: Option<int>)
    ensures r.Some? ==> exists i :: 0 <= i < |s| && IsDigit(s[i])
    ensures r.Some? <==> StartsNumber(TrimStart(s))
  {
    var t := TrimStart(s);
    var r := ParseSigned(t);
    if r.Some? then
      var i :| 0 <= i < |t| && IsDigit(t[i]);
      assert s[|s| - |t| + i] == t[i];
      r
    else r
  }

  lemma NotWhitespace(c: char)
    requires IsDigit(c) || c == '-' || c == '+'
    ensures !IsJsWhitespace(c)
  {
  }

  /** Digits followed by something that is not a digit parse to the digits' value. */
  lemma ParseDigitsStopsAtNonDigit(digits: string, suffix: string)
    requires |digits| > 0 && AllDigits(digits)
    requires |suffix| == 0 || !IsDigit(suffix[0])
    ensures ParseDigits(digits + suffix) == Some(DigitsValue(digits))
  {
    DigitPrefixStopsAtNonDigit(digits, suffix);
  }

  lemma TrimStartKeeps(s: string)
    requires |s| > 0 && !IsJsWhitespace(s[0])
    ensures TrimStart(s) == s
  {
  }

  lemma ParseSignedOfNatString(m: nat, suffix: string)
    requires |suffix| == 0 || !IsDigit(suffix[0])
    ensures ParseSigned(NatString(m) + suffix) == Some(m)
  {
    var digits := NatString(m);
    DigitsValueOfNatString(m);
    ParseDigitsStopsAtNonDigit(digits, suffix);
    assert (digits + suffix)[0] == digits[0];
  }

  lemma ParseSignedOfNegative(m: nat, suffix: string)
    requires m > 0
    requires |suffix| == 0 || !IsDigit(suffix[0])
    ensures ParseSigned("-" + NatString(m) + suffix) == Some(-(m as int))
  {
    var digits := NatString(m);
    DigitsValueOfNatString(m);
    ParseDigitsStopsAtNonDigit(digits, suffix);
    var s := "-" + digits + suffix;
    assert s[1..] == digits + suffix;
  }

  lemma ParseSignedOfDecimal(n: int, suffix: string)
    requires |suffix| == 0 || !IsDigit(suffix[0])
    ensures ParseSigned(DecimalString(n) + suffix) == Some(n)
  {
    if n < 0 {
      ParseSignedOfNegative(-n, suffix);
    } else {
      ParseSignedOfNatString(n, suffix);
    }
  }

  /** What `toString` wrote, followed by a non-digit tail, parses back to the
      number written. */
  lemma ParseIntOfDecimal(n: int, suffix: string)
    requires |suffix| == 0 || !IsDigit(suffix[0])
    ensures ParseInt(DecimalString(n) + suffix) == Some(n)
  {
    var s := DecimalString(n) + suffix;
    assert s[0] == DecimalString(n)[0];
    NotWhitespace(s[0]);
    TrimStartKeeps(s);
    ParseSignedOfDecimal(n, suffix);
  }

  /** Leading whitespace is skipped up to the first other character. */
  lemma {:induction false} TrimStartDropsWhitespace(ws: string, rest: string)
    requires forall i :: 0 <= i < |ws| ==> IsJsWhitespace(ws[i])
    requires |rest| > 0 && !IsJsWhitespace(rest[0])
    ensures TrimStart(ws + rest) == rest
    decreases |ws|
  {
    if |ws| == 0 {
      assert ws + rest == rest;
    } else {
      assert (ws + rest)[1..] == ws[1..] + rest;
      TrimStartDropsWhitespace(ws[1..], rest);
    }
  }

  /** A sign, then text whose unsigned reading is `m`: the sign is applied to `m`. */
  lemma ParseSignedAppliesSign(sign: string, u: string, m: nat)
    requires sign == "" || sign == "-" || sign == "+"
    requires ParseDigits(u) == Some(m)
    ensures ParseSigned(sign + u) == Some(if sign == "-" then -(m as int) else m)
  {
    var t := sign + u;
    if sign == "" {
      assert t == u;
    } else {
      assert t[0] == sign[0] && t[1..] == u;
    }
  }

  /** Whitespace, then a sign, then text whose unsigned reading is `m`. */
  lemma ParseIntAppliesSign(ws: string, sign: string, u: string, m: nat)
    requires forall i :: 0 <= i < |ws| ==> IsJsWhitespace(ws[i])
    requires sign == "" || sign == "-" || sign == "+"
    requires ParseDigits(u) == Some(m)
    ensures ParseInt(ws + sign + u) == Some(if sign == "-" then -(m as int) else m)
  {
    var rest := sign + u;
    assert rest[0] == if sign == "" then u[0] else sign[0];
    NotWhitespace(rest[0]);
    assert ws + sign + u == ws + rest;
    TrimStartDropsWhitespace(ws, rest);
    ParseSignedAppliesSign(sign, u, m);
  }

  /** `parseInt(s, 10)` in general: whitespace, an optional sign, a run of
      digits (leading zeros included), then a tail that does not start with a
      digit; the value is the digits' value with the sign applied, so
      `" +007px"` reads 7. */
  lemma ParseIntReads(ws: string, sign: string, digits: string, suffix: string, m: nat)
    requires forall i :: 0 <= i < |ws| ==> IsJsWhitespace(ws[i])
    requires sign == "" || sign == "-" || sign == "+"
    requires |digits| > 0 && AllDigits(digits) && DigitsValue(digits) == m
    requires |suffix| == 0 || !IsDigit(suffix[0])
    ensures ParseInt(ws + sign + (digits + suffix)) == Some(if sign == "-" then -(m as int) else m)
  {
    ParseDigitsStopsAtNonDigit(digits, suffix);
    ParseIntAppliesSign(ws, sign, digits + suffix, m);
  }

  const GroupMarkerPrefix: string := "group-"

  /** The drop-target id of a group's header: `group-${group.id}`. */
  function GroupMarker(id: int): string {
    GroupMarkerPrefix + DecimalString(id)
  }

  /** `over.id.startsWith('group-')` followed by
      `parseInt(over.id.replace('group-', ''), 10)`, with NaN folded into None.
      `replace` removes the first occurrence, which is the prefix itself. */
  function ParseGroupMarker(s: string): (r: Option<int>)
    ensures r.Some? ==> GroupMarkerPrefix <= s
  {
    if GroupMarkerPrefix <= s then ParseInt(s[|GroupMarkerPrefix|..]) else None
  }

  lemma {:induction false} DigitsValueOfNatString(n: nat)
    ensures DigitsValue(NatString(n)) == n
    decreases n
  {
    if n >= 10 {
      var s := NatString(n);
      assert s[..|s| - 1] == NatString(n / 10);
      DigitsValueOfNatString(n / 10);
    }
  }

  /** parseInt reads back exactly the integer toString wrote. */
  lemma DecimalRoundTrip(n: int)
    ensures ParseInt(DecimalString(n)) == Some(n)
  {
    ParseIntOfDecimal(n, "");
    assert DecimalString(n) + "" == DecimalString(n);
  }

  /** Every group's drop-target id is recognised, and names exactly its group. */
  lemma GroupMarkerRoundTrip(id: int)
    ensures ParseGroupMarker(GroupMarker(id)) == Some(id)
  {
    var m := GroupMarker(id);
    assert m[|GroupMarkerPrefix|..] == DecimalString(id);
    DecimalRoundTrip(id);
  }

  /** Distinct ids render as distinct strings, so matching on `toString()` is matching on the id. */
  lemma DecimalStringInjective(a: int, b: int)
    requires DecimalString(a) == DecimalString(b)
    ensures a == b
  {
    DecimalRoundTrip(a);
    DecimalRoundTrip(b);
  }

  lemma {:induction false} DigitPrefixStopsAtNonDigit(digits: string, suffix: string)
    requires AllDigits(digits)
    requires |suffix| == 0 || !IsDigit(suffix[0])
    ensures DigitPrefix(digits + suffix) == digits
    decreases |digits|
  {
    if |digits| > 0 {
      assert (digits + suffix)[1..] == digits[1..] + suffix;
      DigitPrefixStopsAtNonDigit(digits[1..], suffix);
      assert [digits[0]] + digits[1..] == digits;
    }
  }

  /** Like `parseInt`, the marker reader ignores whatever follows the digits:
      `group-12abc` names group 12. */
  lemma GroupMarkerIgnoresSuffix(id: int, suffix: string)
    requires |suffix| == 0 || !IsDigit(suffix[0])
    ensures ParseGroupMarker(GroupMarker(id) + suffix) == Some(id)
  {
    var tail := DecimalString(id) + suffix;
    var m := GroupMarker(id) + suffix;
    assert m == GroupMarkerPrefix + tail;
    assert GroupMarkerPrefix <= m && m[|GroupMarkerPrefix|..] == tail;
    ParseIntOfDecimal(id, suffix);
  }
}

=== FILE: lists.dfy ===
/** The two array searches the drag handlers rely on: `Array.prototype.findIndex`
    (first matching position, or -1) and `Array.prototype.find` (first matching
    element, or `undefined`). */
module Lists {
  import opened Wrappers

  /** Position of the first element satisfying `p`, or -1 when none does. */
  function FindIndex<T>(s: seq<T>, p: T -> bool): (r: int)
    ensures -1 <= r < |s|
    ensures r == -1 <==> forall i :: 0 <= i < |s| ==> !p(s[i])
    ensures r != -1 ==> p(s[r]) && forall i :: 0 <= i < r ==> !p(s[i])
  {
    if |s| == 0 then -1
    else if p(s[0]) then 0
    else
      var k := FindIndex(s[1..], p);
      if k == -1 then -1 else k + 1
  }

  /** First element satisfying `p`, or None. */
  function FindFirst<T>(s: seq<T>, p: T -> bool): (r: Option<T>)
    ensures r.None? <==> forall x :: x in s ==> !p(x)
    ensures r.Some? ==> r.value in s && p(r.value)
    ensures r.Some? ==>
      exists i :: 0 <= i < |s| && s[i] == r.value && forall j :: 0 <= j < i ==> !p(s[j])
  {
    var i := FindIndex(s, p);
    if i == -1 then None else Some(s[i])
  }
}

=== FILE: model.dfy ===
/** The entities the ordering logic touches and the component state it reads
    and writes. */
module Model {
  import opened Wrappers

  /** A site as the backend returns it. `id` is optional in the source type. */
  datatype Site = Site(
    id: Option<int>,
    groupId: int,
    orderNum: int,
    name: string,
    url: string,
    icon: string,
    description: string,
    notes: string,
    isPublic: int)

  /** A group together with its ordered sites (`GroupWithSites`). */
  datatype Group = Group(
    id: int,
    name: string,
    orderNum: int,
    isPublic: int,
    sites: seq<Site>)

  /** `SortMode.None`, `SortMode.GroupSort`, `SortMode.SiteSort`. */
  datatype SortMode = Idle | GroupSort | SiteSort

  /** The four pieces of component state the sort logic owns: the mode, the
      group whose sites are being sorted, the group highlighted as a transfer
      target, and the working copy of the groups. */
  datatype SortState = SortState(
    mode: SortMode,
    sortingGroup: Option<int>,
    dragOver: Option<int>,
    groups: seq<Group>)

  /** One entry of an order write: `{ id, order_num }`. */
  datatype OrderEntry<K> = OrderEntry(id: K, orderNum: int)

  /** The data-access calls the sort logic issues. */
  datatype ApiCall =
    | UpdateGroupOrder(groupOrders: seq<OrderEntry<int>>)
    | UpdateSiteOrder(siteOrders: seq<OrderEntry<Option<int>>>)
    | UpdateSite(siteId: int, site: Site)
    | FetchData

  /** What `getGroupsWithSites` delivers to a reload: the new groups, or an error. */
  datatype LoadOutcome = Loaded(groups: seq<Group>) | LoadFailed

  /** The snackbar messages raised along the way. */
  datatype Notice =
    | LoadError
    | GroupOrderSaveError
    | SiteOrderSaveError
    | SiteNotFound
    | TransferError
    | SiteMoved(siteName: string)

  /** A cross-group move asked for by a drop: which site, into which group. */
  datatype TransferRequest = TransferRequest(siteId: int, targetGroupId: int)

  /** A handler's outcome: the new state, the calls it issued in order, and the notices it raised in order. */
  datatype StepResult = StepResult(state: SortState, calls: seq<ApiCall>, notices: seq<Notice>)

  /** JavaScript truthiness of a `number | null` id. */
  predicate Truthy(id: Option<int>) {
    id.Some? && id.value != 0
  }

  /** `find` predicates, named so that every use denotes the same function. */
  function GroupIdIs(id: int): Group -> bool {
    (g: Group) => g.id == id
  }

  function SiteIdIs(id: int): Site -> bool {
    (x: Site) => x.id == Some(id)
  }
}

=== FILE: moves.dfy ===
/** `arrayMove` from the sortable-list library: take the element at `from`
    out of the list and insert it again at `to`. */
module Moves {

  /** The list without its element at `i`. */
  function RemoveAt<T>(s: seq<T>, i: nat): (r: seq<T>)
    requires i < |s|
    ensures |r| == |s| - 1
    ensures multiset(r) + multiset{s[i]} == multiset(s)
  {
    assert s == s[..i] + [s[i]] + s[i + 1..];
    s[..i] + s[i + 1..]
  }

  /** The list with `x` inserted so that it ends up at position `i`. */
  function InsertAt<T>(s: seq<T>, i: nat, x: T): (r: seq<T>)
    requires i <= |s|
    ensures |r| == |s| + 1 && r[i] == x
    ensures multiset(r) == multiset(s) + multiset{x}
  {
    assert s == s[..i] + s[i..];
    s[..i] + [x] + s[i..]
  }

  /** Remove at `from`, insert at `to`. Called only with two positions found in the list. */
  function ArrayMove<T>(s: seq<T>, from: nat, to: nat): (r: seq<T>)
    requires from < |s| && to < |s|
    ensures |r| == |s|
    ensures r[to] == s[from]
    ensures multiset(r) == multiset(s)
  {
    InsertAt(RemoveAt(s, from), to, s[from])
  }

  lemma RemoveAtElements<T>(s: seq<T>, i: nat)
    requires i < |s|
    ensures forall j :: 0 <= j < |s| - 1 ==> RemoveAt(s, i)[j] == if j < i then s[j] else s[j + 1]
  {
    var r := RemoveAt(s, i);
    assert r == s[..i] + s[i + 1..];
    forall j | 0 <= j < |s| - 1
      ensures r[j] == if j < i then s[j] else s[j + 1]
    {
      if j < i {
        assert r[j] == s[..i][j];
      } else {
        assert r[j] == s[i + 1..][j - i];
      }
    }
  }

  lemma InsertAtElements<T>(s: seq<T>, i: nat, x: T)
    requires i <= |s|
    ensures forall j :: 0 <= j <= |s| ==> InsertAt(s, i, x)[j] == if j < i then s[j] else if j == i then x else s[j - 1]
  {
    var r := InsertAt(s, i, x);
    assert r == s[..i] + [x] + s[i..];
    forall j | 0 <= j <= |s|
      ensures r[j] == if j < i then s[j] else if j == i then x else s[j - 1]
    {
      if j < i {
        assert r[j] == s[..i][j];
      } else if j > i {
        assert r[j] == s[i..][j - i - 1];
      }
    }
  }

  /** Where every element lands: the moved one at `to`, the ones it passed
      shifted by one towards `from`, all others in place. */
  lemma ArrayMoveElements<T>(s: seq<T>, from: nat, to: nat)
    requires from < |s| && to < |s|
    ensures forall i :: 0 <= i < |s| ==>
      ArrayMove(s, from, to)[i] ==
        if i == to then s[from]
        else if from < to && from <= i < to then s[i + 1]
        else if to < from && to < i <= from then s[i - 1]
        else s[i]
  {
    var rest := RemoveAt(s, from);
    var r := ArrayMove(s, from, to);
    RemoveAtElements(s, from);
    InsertAtElements(rest, to, s[from]);
    forall i | 0 <= i < |s|
      ensures r[i] == if i == to then s[from]
        else if from < to && from <= i < to then s[i + 1]
        else if to < from && to < i <= from then s[i - 1]
        else s[i]
    {
      if i < to {
        assert r[i] == rest[i];
      } else if i > to {
        assert r[i] == rest[i - 1];
      }
    }
  }

  /** Taking the moved element out again gives the list without it: the other
      elements keep their relative order. */
  lemma ArrayMoveKeepsOthersInOrder<T>(s: seq<T>, from: nat, to: nat)
    requires from < |s| && to < |s|
    ensures RemoveAt(ArrayMove(s, from, to), to) == RemoveAt(s, from)
  {
    var rest := RemoveAt(s, from);
    var r := ArrayMove(s, from, to);
    assert r[..to] == rest[..to];
    assert r[to + 1..] == rest[to..];
  }

  /** Putting a removed element back where it was restores the list. */
  lemma InsertUndoesRemove<T>(s: seq<T>, i: nat)
    requires i < |s|
    ensures InsertAt(RemoveAt(s, i), i, s[i]) == s
  {
    var rest := RemoveAt(s, i);
    assert rest[..i] == s[..i];
    assert rest[i..] == s[i + 1..];
    assert s == s[..i] + [s[i]] + s[i + 1..];
  }

  /** Moving back from `to` to `from` restores the original list. */
  lemma ArrayMoveInverse<T>(s: seq<T>, from: nat, to: nat)
    requires from < |s| && to < |s|
    ensures ArrayMove(ArrayMove(s, from, to), to, from) == s
  {
    var r := ArrayMove(s, from, to);
    ArrayMoveKeepsOthersInOrder(s, from, to);
    assert ArrayMove(r, to, from) == InsertAt(RemoveAt(s, from), from, s[from]);
    InsertUndoesRemove(s, from);
  }

  /** Dropping an item on itself changes nothing. */
  lemma ArrayMoveSamePlace<T>(s: seq<T>, i: nat)
    requires i < |s|
    ensures ArrayMove(s, i, i) == s
  {
    assert s == s[..i] + [s[i]] + s[i + 1..];
  }
}

=== FILE: ranks.dfy ===
/** The rank proposed for a new item when its "add" dialog opens. */
module Ranks {
  import opened Model
  import opened Lists

  /** `handleOpenAddGroup`: a new group is ranked `groups.length`. */
  function NewGroupRank(groups: seq<Group>): (r: nat)
    ensures DenseRanks(groups) ==> forall i :: 0 <= i < |groups| ==> groups[i].orderNum < r
  {
    |groups|
  }

  /** Ranks 0 .. n-1 in display order, as a committed group order leaves them. */
  predicate DenseRanks(groups: seq<Group>) {
    forall i :: 0 <= i < |groups| ==> groups[i].orderNum == i
  }

  /** After a committed group order, the new group's rank is used by no group
      and appending the group keeps the ranks dense. */
  lemma NewGroupRankExtendsDense(groups: seq<Group>, g: Group)
    requires DenseRanks(groups)
    requires g.orderNum == NewGroupRank(groups)
    ensures forall i :: 0 <= i < |groups| ==> groups[i].orderNum != g.orderNum
    ensures DenseRanks(groups + [g])
  {
  }

  /** `Math.max(...sites.map((s) => s.order_num))` of a non-empty list. */
  function MaxRank(sites: seq<Site>): (r: int)
    requires |sites| > 0
    ensures forall i :: 0 <= i < |sites| ==> sites[i].orderNum <= r
    ensures exists i :: 0 <= i < |sites| && sites[i].orderNum == r
  {
    if |sites| == 1 then sites[0].orderNum
    else
      var rest := MaxRank(sites[1..]);
      if sites[0].orderNum >= rest then sites[0].orderNum else rest
  }

  /** `handleOpenAddSite(groupId)`: one past the largest rank in the group, or
      0 when the group is empty or not found. */
  function NewSiteRank(groups: seq<Group>, groupId: int): (r: int)
    ensures FindFirst(groups, GroupIdIs(groupId)).None? ==> r == 0
    ensures FindFirst(groups, GroupIdIs(groupId)).Some? ==>
      var sites := FindFirst(groups, GroupIdIs(groupId)).value.sites;
      && (|sites| == 0 ==> r == 0)
      && (forall i :: 0 <= i < |sites| ==> sites[i].orderNum < r)
      && (|sites| > 0 ==> exists i :: 0 <= i < |sites| && sites[i].orderNum == r - 1)
  {
    match FindFirst(groups, GroupIdIs(groupId))
    case None => 0
    case Some(g) => if |g.sites| == 0 then 0 else MaxRank(g.sites) + 1
  }
}

=== FILE: scenarios.dfy ===
/** Two worked examples of the sort logic on concrete data. */
module Scenarios {
  import opened Wrappers
  import opened Model
  import opened Ids
  import opened Lists
  import Drag
  import Moves
  import Session
  import Transfer
  import Trace

  function SampleGroup(id: int, sites: seq<Site>): Group {
    Group(id, "", id, 1, sites)
  }

  /** In groups 1, 2, 3 the key "3" is found at position 2 and the key "1" at position 0. */
  lemma SampleKeysFound()
    ensures var groups := [SampleGroup(1, []), SampleGroup(2, []), SampleGroup(3, [])];
      FindIndex(groups, Drag.GroupKeyIs("3")) == 2 && FindIndex(groups, Drag.GroupKeyIs("1")) == 0
  {
    var g1, g2, g3 := SampleGroup(1, []), SampleGroup(2, []), SampleGroup(3, []);
    var groups := [g1, g2, g3];
    assert DecimalString(1) == "1" && DecimalString(2) == "2" && DecimalString(3) == "3";
    var key3 := Drag.GroupKeyIs("3");
    assert !key3(g1) && !key3(g2) && key3(g3) && Drag.GroupKeyIs("1")(g1);
    assert groups[1..] == [g2, g3] && [g2, g3][1..] == [g3];
    assert FindIndex([g3], key3) == 0;
    assert FindIndex([g2, g3], key3) == 1;
  }

  /** `arrayMove` of groups 1, 2, 3 from position 2 to position 0. */
  lemma SampleMove()
    ensures var g1, g2, g3 := SampleGroup(1, []), SampleGroup(2, []), SampleGroup(3, []);
      Moves.ArrayMove([g1, g2, g3], 2, 0) == [g3, g1, g2]
  {
    var g1, g2, g3 := SampleGroup(1, []), SampleGroup(2, []), SampleGroup(3, []);
    assert Moves.RemoveAt([g1, g2, g3], 2) == [g1, g2];
  }

  /** Groups 1, 2, 3 while group sorting: group 3 dropped on group 1 comes
      first, and the hover mark is cleared. */
  lemma GroupDropReorders()
    ensures var g1, g2, g3 := SampleGroup(1, []), SampleGroup(2, []), SampleGroup(3, []);
      var r := Drag.DragEnd(SortState(GroupSort, None, None, [g1, g2, g3]), "3", Some("1"));
      r.state.groups == [g3, g1, g2] && r.state.dragOver == None
  {
    var g1, g2, g3 := SampleGroup(1, []), SampleGroup(2, []), SampleGroup(3, []);
    var s := SortState(GroupSort, None, None, [g1, g2, g3]);
    SampleKeysFound();
    Drag.GroupSortDropMoves(s, "3", "1", 2, 0);
    SampleMove();
  }

  /** Saving that order writes 3, 1, 2 with ranks 0, 1, 2, reloads, and ends sorting. */
  lemma GroupOrderSaved(reloaded: seq<Group>)
    ensures var g1, g2, g3 := SampleGroup(1, []), SampleGroup(2, []), SampleGroup(3, []);
      var r := Session.SaveGroupOrder(SortState(GroupSort, None, None, [g3, g1, g2]), true, Loaded(reloaded));
      && r.calls == [UpdateGroupOrder([OrderEntry(3, 0), OrderEntry(1, 1), OrderEntry(2, 2)]), FetchData]
      && r.state == SortState(Idle, None, None, reloaded)
  {
    var g1, g2, g3 := SampleGroup(1, []), SampleGroup(2, []), SampleGroup(3, []);
    var r := Session.SaveGroupOrder(SortState(GroupSort, None, None, [g3, g1, g2]), true, Loaded(reloaded));
    assert r.calls[0].groupOrders == [OrderEntry(3, 0), OrderEntry(1, 1), OrderEntry(2, 2)];
    assert r.calls == [r.calls[0]] + r.calls[1..];
  }

  /** Sorting the sites of group 1, which holds `site`; group `target` is empty. */
  function SiteSortState(site: Site, target: int): SortState {
    SortState(SiteSort, Some(1), Some(target), [SampleGroup(1, [site]), SampleGroup(target, [])])
  }

  /** A site of group 1 (with a non-zero id), dropped on the header of
      another group while group 1 is sorted, asks for a transfer into that
      group and clears the hover mark. */
  lemma DropOnForeignContainer(site: Site, target: int)
    requires site.id.Some? && site.id.value != 0 && target != 1
    ensures var s := SiteSortState(site, target);
      Drag.DragEnd(s, DecimalString(site.id.value), Some(GroupMarker(target)))
        == Drag.DragEndResult(s.(dragOver := None), Some(TransferRequest(site.id.value, target)))
  {
    var s := SiteSortState(site, target);
    var source := SampleGroup(1, [site]);
    var key := DecimalString(site.id.value);
    GroupMarkerRoundTrip(target);
    assert GroupIdIs(1)(source);
    assert FindFirst(s.groups, GroupIdIs(1)) == Some(source);
    assert Drag.SiteKeyIs(key)(site);
    assert FindFirst(source.sites, Drag.SiteKeyIs(key)) == Some(site);
    Drag.SiteSortDropTransfers(s, key, GroupMarker(target), source, site, target);
  }

  lemma SampleSites(site: Site, target: int)
    ensures Transfer.AllSites(SiteSortState(site, target).groups) == [site]
  {
    var groups := SiteSortState(site, target).groups;
    assert groups[1..][1..] == [];
    assert Transfer.AllSites(groups[1..]) == [];
  }

  /** The transfer writes the site once, re-homed with rank 0, then reloads;
      the working groups are replaced by the reload, not spliced locally, and
      site sorting continues. */
  lemma TransferWritesOnce(site: Site, target: int, reloaded: seq<Group>)
    requires site.id.Some?
    ensures var s := SiteSortState(site, target).(dragOver := None);
      var r := Transfer.TransferSite(s, TransferRequest(site.id.value, target), true, Loaded(reloaded));
      && r.calls == [UpdateSite(site.id.value, site.(groupId := target, orderNum := 0)), FetchData]
      && r.state == SortState(SiteSort, Some(1), None, reloaded)
      && r.notices == [SiteMoved(site.name)]
  {
    var s := SiteSortState(site, target).(dragOver := None);
    SampleSites(site, target);
    assert FindFirst([site], SiteIdIs(site.id.value)) == Some(site);
  }

  /** The drop together with the transfer it asks for. */
  lemma DropTransfersAndReloads(site: Site, target: int, reloaded: seq<Group>)
    requires site.id.Some? && site.id.value != 0 && target != 1
    ensures var r := Trace.DropAndTransfer(SiteSortState(site, target),
        DecimalString(site.id.value), Some(GroupMarker(target)), true, Loaded(reloaded));
      && r.calls == [UpdateSite(site.id.value, site.(groupId := target, orderNum := 0)), FetchData]
      && r.state == SortState(SiteSort, Some(1), None, reloaded)
  {
    var s := SiteSortState(site, target);
    var key, marker := DecimalString(site.id.value), GroupMarker(target);
    var drop := Drag.DragEndResult(s.(dragOver := None), Some(TransferRequest(site.id.value, target)));
    DropOnForeignContainer(site, target);
    TransferWritesOnce(site, target, reloaded);
    assert Trace.Complete(drop, true, Loaded(reloaded))
      == Transfer.TransferSite(s.(dragOver := None), TransferRequest(site.id.value, target), true, Loaded(reloaded));
  }
}

=== FILE: session.dfy ===
/** The sort-mode state machine and the two "save order" handlers. */
module Session {
  import opened Wrappers
  import opened Model
  import Sync

  /** The mode and the sorting group agree: a group is being sorted exactly in site-sort mode. */
  predicate ModeConsistent(s: SortState) {
    s.sortingGroup.Some? <==> s.mode == SiteSort
  }

  /** Enter group sorting from whatever mode was active. The working groups and
      the hover mark are left as they are. */
  function StartGroupSort(s: SortState): (r: SortState)
    ensures r.mode == GroupSort && r.sortingGroup == None
    ensures r.groups == s.groups && r.dragOver == s.dragOver
  {
    s.(mode := GroupSort, sortingGroup := None)
  }

  /** Enter site sorting for `groupId` from whatever mode was active. */
  function StartSiteSort(s: SortState, groupId: int): (r: SortState)
    ensures r.mode == SiteSort && r.sortingGroup == Some(groupId)
    ensures r.groups == s.groups && r.dragOver == s.dragOver
  {
    s.(mode := SiteSort, sortingGroup := Some(groupId))
  }

  /** Leave sorting and clear the hover mark. The working groups are not
      restored: whatever order the drags produced stays on screen. */
  function CancelSort(s: SortState): (r: SortState)
    ensures r.mode == Idle && r.sortingGroup == None && r.dragOver == None
    ensures r.groups == s.groups
  {
    s.(mode := Idle, sortingGroup := None, dragOver := None)
  }

  /** Entering a mode replaces the previous one: the result depends on the
      prior state only through its groups and hover mark. */
  lemma ModeEntryForgetsPriorMode(s: SortState, t: SortState, groupId: int)
    requires s.groups == t.groups && s.dragOver == t.dragOver
    ensures StartGroupSort(s) == StartGroupSort(t)
    ensures StartSiteSort(s, groupId) == StartSiteSort(t, groupId)
    ensures CancelSort(s) == CancelSort(t)
  {
  }

  /** Every member of a list paired with its position: `list.map((x, index) => ({ id, order_num: index }))`. */
  function OrderPayload<K>(ids: seq<K>): (r: seq<OrderEntry<K>>)
    ensures |r| == |ids|
    ensures forall i :: 0 <= i < |r| ==> r[i].id == ids[i] && r[i].orderNum == i
  {
    seq(|ids|, i requires 0 <= i < |ids| => OrderEntry(ids[i], i))
  }

  function PayloadIds<K>(payload: seq<OrderEntry<K>>): seq<K> {
    seq(|payload|, i requires 0 <= i < |payload| => payload[i].id)
  }

  function PayloadRanks<K>(payload: seq<OrderEntry<K>>): set<int> {
    set i | 0 <= i < |payload| :: payload[i].orderNum
  }

  /** The payload names every member, moved or not, in display order ... */
  lemma PayloadIdsRoundTrip<K>(ids: seq<K>)
    ensures PayloadIds(OrderPayload(ids)) == ids
  {
  }

  /** ... and its ranks are exactly 0 .. n-1, each used once. */
  lemma PayloadRanksDense<K>(ids: seq<K>)
    ensures forall n :: n in PayloadRanks(OrderPayload(ids)) <==> 0 <= n < |ids|
    ensures forall i, j :: 0 <= i < j < |ids| ==> OrderPayload(ids)[i].orderNum != OrderPayload(ids)[j].orderNum
  {
    var p := OrderPayload(ids);
    forall n | 0 <= n < |ids|
      ensures n in PayloadRanks(p)
    {
      assert p[n].orderNum == n;
    }
  }

  /** The list's ids in display order: `items.map(item => item.id)`. */
  function Keys<T, K>(items: seq<T>, key: T -> K): (r: seq<K>)
    ensures |r| == |items| && forall i :: 0 <= i < |items| ==> r[i] == key(items[i])
  {
    seq(|items|, i requires 0 <= i < |items| => key(items[i]))
  }

  function GroupKey(g: Group): int { g.id }

  function SiteKey(x: Site): Option<int> { x.id }

  /** What both save handlers do once the write call has answered. Accepted:
      reload, then back to no sorting (the hover mark is not touched); the only
      notice is the reload's own, when it fails. Refused
      (a `false` answer or a thrown error): raise `failure` and change nothing. */
  function FinishSave(s: SortState, write: ApiCall, accepted: bool, load: LoadOutcome, failure: Notice): (r: StepResult)
    ensures |r.calls| > 0 && r.calls[0] == write
    ensures accepted ==> r.calls == [write, FetchData]
    ensures accepted ==> r.state.mode == Idle && r.state.sortingGroup == None
    ensures accepted ==> r.state.dragOver == s.dragOver
    ensures accepted ==> r.state.groups == (if load.Loaded? then load.groups else s.groups)
    ensures accepted ==> r.notices == (if load.LoadFailed? then [LoadError] else [])
    ensures !accepted ==> r == StepResult(s, [write], [failure])
  {
    if accepted then
      var reload := Sync.Reload(s, load);
      StepResult(reload.state.(mode := Idle, sortingGroup := None), [write] + reload.calls, reload.notices)
    else
      StepResult(s, [write], [failure])
  }

  /** `handleSaveGroupOrder`: one write carrying the rank of every group in the
      working order. */
  function SaveGroupOrder(s: SortState, accepted: bool, load: LoadOutcome): (r: StepResult)
    ensures |r.calls| > 0 && r.calls[0].UpdateGroupOrder?
    ensures |r.calls[0].groupOrders| == |s.groups|
    ensures forall i :: 0 <= i < |s.groups| ==> r.calls[0].groupOrders[i] == OrderEntry(s.groups[i].id, i)
    ensures accepted ==> r.calls[1..] == [FetchData]
    ensures accepted ==> r.state.mode == Idle && r.state.sortingGroup == None
    ensures accepted ==> r.state.dragOver == s.dragOver
    ensures accepted && load.Loaded? ==> r.state.groups == load.groups
    ensures accepted && load.LoadFailed? ==> r.state.groups == s.groups
    ensures accepted ==> r.notices == (if load.LoadFailed? then [LoadError] else [])
    ensures !accepted ==> r.state == s && |r.calls| == 1 && r.notices == [GroupOrderSaveError]
  {
    FinishSave(s, UpdateGroupOrder(OrderPayload(Keys(s.groups, GroupKey))), accepted, load, GroupOrderSaveError)
  }

  /** `handleSaveSiteOrder(groupId, sites)`: one write carrying the rank of every
      site in the list the group card hands over. `groupId` is not used. */
  function SaveSiteOrder(s: SortState, groupId: int, sites: seq<Site>, accepted: bool, load: LoadOutcome): (r: StepResult)
    ensures |r.calls| > 0 && r.calls[0].UpdateSiteOrder?
    ensures |r.calls[0].siteOrders| == |sites|
    ensures forall i :: 0 <= i < |sites| ==> r.calls[0].siteOrders[i] == OrderEntry(sites[i].id, i)
    ensures accepted ==> r.calls[1..] == [FetchData]
    ensures accepted ==> r.state.mode == Idle && r.state.sortingGroup == None
    ensures accepted ==> r.state.dragOver == s.dragOver
    ensures accepted && load.Loaded? ==> r.state.groups == load.groups
    ensures accepted && load.LoadFailed? ==> r.state.groups == s.groups
    ensures accepted ==> r.notices == (if load.LoadFailed? then [LoadError] else [])
    ensures !accepted ==> r.state == s && |r.calls| == 1 && r.notices == [SiteOrderSaveError]
  {
    FinishSave(s, UpdateSiteOrder(OrderPayload(Keys(sites, SiteKey))), accepted, load, SiteOrderSaveError)
  }
}

=== FILE: sync.dfy ===
/** `fetchData`: the full reload that follows every successful mutation. */
module Sync {
  import opened Model

  /** A successful load replaces the working groups wholesale; a failed one
      leaves them as they were and raises a notice. Nothing else changes. */
  function Reload(s: SortState, load: LoadOutcome): (r: StepResult)
    ensures r.calls == [FetchData]
    ensures r.state.mode == s.mode && r.state.sortingGroup == s.sortingGroup
    ensures r.state.dragOver == s.dragOver
    ensures load.Loaded? ==> r.state.groups == load.groups && r.notices == []
    ensures load.LoadFailed? ==> r.state == s && r.notices == [LoadError]
  {
    match load
    case Loaded(groups) => StepResult(s.(groups := groups), [FetchData], [])
    case LoadFailed => StepResult(s, [FetchData], [LoadError])
  }
}

=== FILE: trace.dfy ===
/** The component seen as a whole: every user-visible handler of the sort
    logic as one event, and runs of events from one state. The transfer a drop
    asks for is completed inside the drop's event, with its outcome given. */
module Trace {
  import opened Wrappers
  import opened Model
  import opened Ids
  import Session
  import Drag
  import Transfer

  datatype Event =
    | StartGroupSort
    | StartSiteSort(groupId: int)
    | CancelSort
    | DragOver(overId: Option<string>)
    | DragEnd(activeId: string, overId: Option<string>, updateAccepted: bool, load: LoadOutcome)
    | SaveGroupOrder(accepted: bool, load: LoadOutcome)
    | SaveSiteOrder(groupId: int, sites: seq<Site>, accepted: bool, load: LoadOutcome)

  predicate IsSave(e: Event) {
    e.SaveGroupOrder? || e.SaveSiteOrder?
  }

  predicate IsOrderWrite(c: ApiCall) {
    c.UpdateGroupOrder? || c.UpdateSiteOrder?
  }

  /** The state right after mount: no sorting, no hover, nothing loaded yet. */
  const Initial: SortState := SortState(Idle, None, None, [])

  /** What follows a drop: the transfer it asked for, if any. */
  function Complete(drop: Drag.DragEndResult, accepted: bool, load: LoadOutcome): (r: StepResult)
    ensures r.state.mode == drop.state.mode && r.state.sortingGroup == drop.state.sortingGroup
    ensures forall c :: c in r.calls ==> !IsOrderWrite(c)
    ensures FetchData !in r.calls ==> r.state.groups == drop.state.groups
    ensures drop.transfer.None? ==> r == StepResult(drop.state, [], [])
  {
    match drop.transfer
    case None => StepResult(drop.state, [], [])
    case Some(req) => Transfer.TransferSite(drop.state, req, accepted, load)
  }

  /** A drop, followed by the transfer it asked for, if any. */
  function DropAndTransfer(s: SortState, activeId: string, overId: Option<string>, accepted: bool, load: LoadOutcome): (r: StepResult)
    ensures r.state.mode == s.mode && r.state.sortingGroup == s.sortingGroup
    ensures forall c :: c in r.calls ==> !IsOrderWrite(c)
    ensures FetchData !in r.calls ==> multiset(r.state.groups) == multiset(s.groups)
  {
    Complete(Drag.DragEnd(s, activeId, overId), accepted, load)
  }

  /** One handler. Every handler keeps the mode consistent, only the two save
      handlers write an order, and a handler that does not reload only
      rearranges the working groups. */
  function Step(s: SortState, e: Event): (r: StepResult)
    ensures Session.ModeConsistent(s) ==> Session.ModeConsistent(r.state)
    ensures !IsSave(e) ==> forall c :: c in r.calls ==> !IsOrderWrite(c)
    ensures FetchData !in r.calls ==> multiset(r.state.groups) == multiset(s.groups)
  {
    match e
    case StartGroupSort => StepResult(Session.StartGroupSort(s), [], [])
    case StartSiteSort(g) => StepResult(Session.StartSiteSort(s, g), [], [])
    case CancelSort => StepResult(Session.CancelSort(s), [], [])
    case DragOver(o) => StepResult(Drag.DragOver(s, o), [], [])
    case DragEnd(a, o, ok, load) => DropAndTransfer(s, a, o, ok, load)
    case SaveGroupOrder(ok, load) => Session.SaveGroupOrder(s, ok, load)
    case SaveSiteOrder(g, sites, ok, load) => Session.SaveSiteOrder(s, g, sites, ok, load)
  }

  /** The events applied in order; calls and notices accumulate in issue order.
      Over any run: exactly one mode is active, with a sorting group exactly in
      site sorting; without a save no order is written; and until a reload is
      issued the working groups are only rearranged, never added to, dropped
      or altered locally. */
  function Run(s: SortState, events: seq<Event>): (r: StepResult)
    ensures Session.ModeConsistent(s) ==> Session.ModeConsistent(r.state)
    ensures (forall i :: 0 <= i < |events| ==> !IsSave(events[i])) ==>
      forall c :: c in r.calls ==> !IsOrderWrite(c)
    ensures FetchData !in r.calls ==> multiset(r.state.groups) == multiset(s.groups)
    decreases |events|
  {
    if |events| == 0 then StepResult(s, [], [])
    else
      var first := Step(s, events[0]);
      var rest := Run(first.state, events[1..]);
      StepResult(rest.state, first.calls + rest.calls, first.notices + rest.notices)
  }

  /** From the state after mount, any run keeps exactly one mode active. */
  lemma RunFromMountKeepsModeConsistent(events: seq<Event>)
    ensures Session.ModeConsistent(Run(Initial, events).state)
  {
  }

  /** A transfer asked for by a drop always finds its site: the site-not-found
      branch of the transfer handler is unreachable from a drop, so the drop
      always issues its `updateSite`. */
  lemma DropTransferFindsSite(s: SortState, activeId: string, overId: Option<string>, accepted: bool, load: LoadOutcome)
    requires Drag.DragEnd(s, activeId, overId).transfer.Some?
    ensures DropAndTransfer(s, activeId, overId, accepted, load).calls != []
    ensures DropAndTransfer(s, activeId, overId, accepted, load).calls[0].UpdateSite?
    ensures DropAndTransfer(s, activeId, overId, accepted, load).calls[0].site.orderNum == 0
  {
    var drop := Drag.DragEnd(s, activeId, overId);
    var req := drop.transfer.value;
    assert drop.state.groups == s.groups;
    var g :| g in s.groups && g.id == s.sortingGroup.value
      && exists x :: x in g.sites && x.id == Some(req.siteId) && DecimalString(req.siteId) == activeId;
    var x :| x in g.sites && x.id == Some(req.siteId);
    assert x in Transfer.AllSites(s.groups);
  }
}

=== FILE: transfer.dfy ===
/** `handleTransferSite`: re-home one site into another group through a single
    `updateSite` call, then reload. */
module Transfer {
  import opened Wrappers
  import opened Model
  import opened Lists
  import Sync

  /** `groups.flatMap((g) => g.sites || [])`: every site of every group, group by group. */
  function AllSites(groups: seq<Group>): (r: seq<Site>)
    ensures forall g, x :: g in groups && x in g.sites ==> x in r
    ensures forall x :: x in r ==> exists g :: g in groups && x in g.sites
  {
    if |groups| == 0 then [] else groups[0].sites + AllSites(groups[1..])
  }

  /** The record sent to `updateSite`: `{ ...site, group_id: target, order_num: 0 }`. */
  function TransferredSite(site: Site, targetGroupId: int): (r: Site)
    ensures r.groupId == targetGroupId && r.orderNum == 0
    ensures r.(groupId := site.groupId, orderNum := site.orderNum) == site
  {
    site.(groupId := targetGroupId, orderNum := 0)
  }

  /** Take the first site with the id among all sites of the working groups. Not found:
      raise a notice and issue nothing. Found: issue one `updateSite` with the
      re-homed record; if it is accepted, reload and announce the move, else
      raise a notice. The sort mode, the sorting group and the hover mark are
      never touched, and the groups change only through the reload: there is
      no local insertion into the target group. */
  function TransferSite(s: SortState, req: TransferRequest, accepted: bool, load: LoadOutcome): (r: StepResult)
    ensures r.state.mode == s.mode && r.state.sortingGroup == s.sortingGroup
    ensures r.state.dragOver == s.dragOver
    ensures r.state.groups == (if FetchData in r.calls && load.Loaded? then load.groups else s.groups)
    ensures forall c :: c in r.calls ==> c.UpdateSite? || c.FetchData?
    ensures (forall x :: x in AllSites(s.groups) ==> x.id != Some(req.siteId)) <==> r.calls == []
    ensures r.calls == [] ==> r.notices == [SiteNotFound]
    ensures r.calls != [] ==>
      exists x :: FindFirst(AllSites(s.groups), SiteIdIs(req.siteId)) == Some(x)
        && r.calls[0] == UpdateSite(req.siteId, TransferredSite(x, req.targetGroupId))
        && (accepted ==> r.notices == (if load.LoadFailed? then [LoadError] else []) + [SiteMoved(x.name)])
    ensures r.calls != [] && !accepted ==> r.state == s && r.notices == [TransferError]
    ensures r.calls != [] ==> r.calls[1..] == (if accepted then [FetchData] else [])
  {
    match FindFirst(AllSites(s.groups), SiteIdIs(req.siteId))
    case None => StepResult(s, [], [SiteNotFound])
    case Some(site) =>
      var write := UpdateSite(req.siteId, TransferredSite(site, req.targetGroupId));
      if accepted then
        var reload := Sync.Reload(s, load);
        StepResult(reload.state, [write] + reload.calls, reload.notices + [SiteMoved(site.name)])
      else
        StepResult(s, [write], [TransferError])
  }
}

=== FILE: wrappers.dfy ===
/** The optional value used wherever the source has `null`, `undefined` or `NaN`. */
module Wrappers {

  datatype Option<+T> = None | Some(value: T)

}
